=== FILE: README.md ===
# Mini-golf ball and hole rules, in Dafny

This project models the rule system of a small first-person mini-golf game.

- **The golf ball** (`GolfBall`, golf_ball.dfy) is either in flight or rolling.
  - In flight, each frame applies gravity (-9.8) and air drag (×0.999). At or below ground height 0.2 the ball is put back on the ground. It then bounces (vertical speed ×-0.6) if its vertical speed is above 0.1, and stops flying otherwise.
  - Rolling scales the horizontal speed by 0.96, drops the vertical speed, and stops the ball dead below speed 0.01.
  - A hit is a flying shot when its power is above 8, and a rolling shot (at 0.6 of the power) otherwise.
- **The hole** (`GolfHole`, hole.dfy) does two things, both in the ground plane:
  - it pulls a ball between 0.1 and 0.5 from it with a small nudge that fades linearly with distance;
  - it counts the ball as holed within radius 0.35, or within 1.2 radii if the ball is slower than 0.5.
- **The frame loop** (`Game`, game.dfy):
  1. Holding the space bar charges a shot, for at most 2 s.
  2. Releasing it hits the ball with power lerped from 2 to 30 along the camera's aim tilted up by 0.2.
  3. Every frame steps the ball and applies the hole's pull.
  4. Once the ball of a shot in progress is slower than 0.01, the shot ends. A holed ball scores a point and moves the hole to a random spot in x ∈ [-4, 4), z ∈ (-8, 0]. Either way the ball goes back to the tee at rest.
- **Vector helpers** (`Vectors`, vectors.dfy) provide what the rest is built on: three-dimensional vectors over the reals, lengths, and normalization.

All quantities are reals. Dafny has no square root on the reals, so every operation that takes a length or normalizes a vector receives the square root as a parameter. The precondition `IsSqrt` pins that parameter down to the real square root.

The source compares lengths against thresholds. The model compares squared lengths against squared thresholds, and one lemma per test shows the two comparisons agree:
- `GolfBall.StopTest` for the rolling stop;
- `GolfHole.PullZoneTest` for the pull zone;
- `GolfHole.CaptureByDistance` for capture;
- `Game.ShotOverBySpeed` for the end of a shot.

Each operation is a pure function over immutable records:
- `Ball`, `Hole`, and the game `State` are records.
- A frame's outside world is an `Input` record: the space bar now and in the previous frame, the frame time, the camera's facing, and two random draws.
- A frame is `Game.Frame`, the composition of `StartCharge`, `ChargeUp`, `Release`, `Physics` and `Resolve`.

Quirks of the code that the model keeps:
- **Rolling does not always mean zero vertical speed.** On the frame a flight settles, the code keeps the vertical speed. `GolfBall.Settle` states this, and the next rolling frame clears it (`GolfBall.Rolling`).
- **A bounce does not leave the ball at ground height.** The code puts the ball at 0.2 and then moves it by the bounced velocity, so it ends at `0.2 + vy·dt` (`GolfBall.Bounce`).
- **A flying shot from the tee bounces on its first frame.** The ground test reads the height before the ball moves, so a shot struck at height 0.2 that is still climbing faster than 0.1 after gravity bounces straight away. Its vertical speed turns downward and it sinks below ground height (`GolfBall.TakeOffBounce`).
- **The hole pulls in every frame.** The pull is applied whether or not a shot is in progress (`Game.Physics`).

## Model

| member | source | states |
|---|---|---|
| GolfBall.Update | GolfBall.cs:122-158 | The rolling flag never changes. A ball that is not flying stays on the ground, ends with zero vertical speed, keeps at most the friction factor squared (0.9216) of its squared speed, and is either stopped or at least as fast as the stop speed. |
| GolfBall.Roll | GolfBall.cs:144-155 | The rolling velocity has no vertical part. Its squared size is at most 0.9216 times the old one. It is zero or at least the stop speed. |
| GolfBall.RollingDecay | GolfBall.cs:147-148 | Scaling the horizontal part by the friction factor never leaves more than 0.9216 of the squared speed. |
| GolfBall.UpdateMoves | GolfBall.cs:131-157 | After every frame the position is the start point plus the new velocity times the step. The start point is the position, lifted to height 0.2 if a flying ball was at or below it. |
| GolfBall.Airborne | GolfBall.cs:125-130 | A flying ball above the ground gets velocity (v + (0, -9.8·dt, 0))·0.999, component by component, and keeps flying. |
| GolfBall.Bounce | GolfBall.cs:131-137 | A flying ball at or below 0.2 whose post-gravity vertical speed v'.y has size above 0.1 keeps flying with vertical speed -0.6·v'.y, whatever the sign of v'.y. It keeps horizontal speed v'.x, v'.z and moves from height 0.2 by the bounced velocity times dt. |
| GolfBall.Settle | GolfBall.cs:131-141 | A flying ball at or below 0.2 with post-gravity vertical speed of size at most 0.1 stops flying. It keeps that velocity, vertical part included, for this frame. |
| GolfBall.Rolling | GolfBall.cs:144-155 | A rolling ball whose friction-scaled horizontal velocity is below the stop speed stops where it is. Otherwise its velocity is exactly that friction-scaled horizontal velocity. |
| GolfBall.StopTest | GolfBall.cs:151-154 | The stop test on squared speed agrees with the source's test `Length < 0.01`. |
| GolfBall.TakeOffBounce | GolfBall.cs:125-137 | A flying ball at or below 0.2 whose post-gravity vertical speed is above 0.1 is bounced at once. It keeps flying, its vertical speed becomes negative, and with a positive step it ends below 0.2. |
| GolfBall.TeeShotBounces | GolfBall.cs:125-183 | A flying shot struck at or below 0.2 that still climbs faster than 0.1 after one frame of gravity and drag is bounced on that first frame. It keeps flying, heads down, and with a positive step ends below 0.2. |
| GolfBall.Simulate | GolfBall.cs:122-158 | Over any number of frames the rolling flag is unchanged, and a ball that is not flying never starts flying. |
| GolfBall.RollingStaysGrounded | GolfBall.cs:122-158 | Frames never start a flight from the ground. After at least one frame, a grounded ball has zero vertical speed. |
| GolfBall.RollingFrameBound | GolfBall.cs:146-155 | One more rolling frame in front of a run of frames adds one more factor of 0.9216 to the bound on the squared speed. |
| GolfBall.RollingSlowsDown | GolfBall.cs:146-155 | After n rolling frames the squared speed is at most 0.9216^n times the initial squared speed. |
| GolfBall.Lifted | GolfBall.cs:175-181 | The flying-shot aim, the unit direction raised by 0.2 and normalized, has unit length. |
| GolfBall.LiftNonZero | GolfBall.cs:180-181 | Raising a unit vector by 0.2 never gives the zero vector, so the second normalization is always defined. |
| GolfBall.Flattened | GolfBall.cs:175-188 | The rolling-shot aim, the unit direction flattened and normalized, has unit length and no vertical part. |
| GolfBall.Hit | GolfBall.cs:172-192 | The ball flies exactly when the power is above 8, strictly. A flying shot keeps the position and has speed equal to the power. A rolling shot has no vertical speed, speed 0.6 times the power, and the position's X and Z with Y set to 0.2. The rolling flag is unchanged. |
| GolfBall.FlightShotDirection | GolfBall.cs:177-183 | A flying shot points along the unit aim raised by 0.2, and climbs whenever the aim does not point down. |
| GolfBall.RollingShotDirection | GolfBall.cs:184-190 | A rolling shot with positive power points along the horizontal part of the aim. |
| Vectors.NormalizeIdempotent | GolfBall.cs:174-175 | Normalizing an already normalized vector changes nothing. |
| GolfHole.PullForce | Hole.cs:114-115 | Inside the pull zone the force coefficient after the linear falloff is positive. |
| GolfHole.PullStrength | Hole.cs:114-117 | Inside the zone the size of the nudge is positive. It is below 0.3·0.8·0.2·0.1 = 0.0048 for a ball not flagged as rolling, and below 0.5·0.8·0.2·0.1 = 0.008 for a flagged one. |
| GolfHole.PullFades | Hole.cs:115 | The nudge strictly weakens as the distance grows. |
| GolfHole.Pull | Hole.cs:103-118 | The nudge has no vertical part. It is non-zero exactly when the ground distance is strictly between 0.1 and 0.5. Inside that band it points towards the hole: its dot product with hole minus ball is positive. |
| GolfHole.PullZoneTest | Hole.cs:105-109 | The source's test `distance < 0.5 && distance > 0.1` on the ground distance is the model's test on the squared distance. |
| GolfHole.PullTowardsHole | Hole.cs:111-117 | The normalized ground offset times a positive force times 0.1 is horizontal, non-zero, and has a positive dot product with hole minus ball. |
| GolfHole.PullSize | Hole.cs:111-117 | Inside the zone the nudge's squared size is the square of 0.3 or 0.5, times (1 - d/0.5)·0.2·0.1, at the ball's ground distance d. |
| GolfHole.PullBelowMax | Hole.cs:114-117 | Inside the zone, a ball not flagged as rolling gets a nudge of size below 0.0048. |
| GolfHole.PullStrongerNearer | Hole.cs:114-117 | Of two balls in the zone with the same rolling flag, the nearer one gets the larger nudge. |
| GolfHole.PullBounded | Hole.cs:114-117 | For a ball not flagged as rolling, which is every ball the game produces, the nudge's size is below 0.0048. Together with `GolfHole.Pull` it lies in (0, 0.0048) inside the zone and is zero outside it. |
| GolfHole.ApplyAttraction | Hole.cs:103-119 | The ball's position, flags and vertical speed are untouched. The ball is unchanged exactly when it is outside the pull zone. Inside the zone the velocity change points towards the hole. |
| GolfHole.CheckBallInHole | Hole.cs:121-136 | A ball within 0.35 of the hole on the ground is holed whatever its speed and height. A holed ball is within 0.42 on the ground. |
| GolfHole.CaptureByDistance | Hole.cs:124-135 | The test on squares is exactly the source's `distance <= 0.35 \|\| (distance <= 0.35·1.2 && speed < 0.5)` on ground distance and speed. This covers both directions: true inside 0.35, true up to 0.42 when slower than 0.5, false otherwise. |
| GolfHole.HeightIgnored | Hole.cs:124-135 | The heights of the ball and of the hole change neither the capture test nor the pull. |
| Game.StartCharge | Game.cs:191-195 | A charge is active afterwards exactly when one was, or the space bar is down with no shot in progress. A new charge starts at 0. Nothing else changes. |
| Game.ChargeUp | Game.cs:197-202 | Only the charge changes, and only while charging. It grows by the frame time, but never above 2 s. |
| Game.ShotPower | Game.cs:211 | A charge in [0, 2] gives a power in [2, 30]. |
| Game.ShotPowerMonotone | Game.cs:211 | On charges in [0, 2], power grows strictly with the charge. Charge 0 gives 2 and charge 2 gives 30. |
| Game.FlyingCharge | Game.cs:211 | A released shot flies exactly when its charge is above 3/7 s. |
| Game.AimDirection | Game.cs:207-209 | The shot direction is a unit vector along the aim raised by 0.2, and it keeps a horizontal part. |
| Game.Release | Game.cs:205-216 | When the space bar goes up during a charge, a shot starts and the charge ends. The ball flies exactly when the charged power is above 8. A flying shot keeps the ball's position and has speed equal to the charged power. A rolling shot has speed 0.6 times the charged power, no vertical speed, and the ball's X and Z with Y set to 0.2. The shot follows the camera's aim: a flying shot points along the tilted aim direction raised by 0.2 once more, and a rolling shot from a non-negative charge points along the aim's horizontal part. Hole, score, charge and rolling flag are kept. In every other frame nothing changes. |
| Game.ShotAlongAim | Game.cs:207-212 | A shot struck along the tilted camera aim flies along that direction raised by 0.2, or, with positive power, rolls along the horizontal part of the camera's aim. |
| Game.Physics | Game.cs:218-221 | Only the ball changes, and its rolling flag does not. The ball ends where the ball step puts it, flying exactly when that step leaves it flying: the pull never moves the ball and never lifts it. A ball on the ground stays there and ends the frame with zero vertical speed. The vertical speed is the ball step's. Outside the hole's pull zone the ball is exactly what the ball step made it; inside, the velocity changes by a nudge towards the hole. |
| Game.RelocatedHole | Game.cs:233-235 | Random draws in [0, 1) place the new hole at height 0 with x in [-4, 4) and z in (-8, 0]. |
| Game.Resolve | Game.cs:223-248 | A state whose shot is not over is left alone. Ending a shot clears it and puts the ball on the tee at rest with its flight flag kept. The score rises by 1 exactly when the ended shot's ball is holed, and otherwise stays. A holed ball moves the hole to the drawn spot, and the hole moves on no other occasion. |
| Game.ShotOverBySpeed | Game.cs:223 | The end-of-shot test on squared speed agrees with the source's `ball.Velocity.Length < 0.01`. |
| Game.CaptureAtRest | Game.cs:223-225 | When a shot ends the ball is slower than 0.5. It is therefore holed exactly when it is within 0.42 of the hole on the ground. |
| Game.Frame | Game.cs:190-248 | The score never drops and rises by at most 1. It rises exactly when the frame ends a shot whose ball is in the hole. Whenever the score rises the hole moves to the drawn spot, and the hole moves only then. |
| Game.FrameResets | Game.cs:244-247 | A frame that ends a shot leaves the ball at (0, 0.2, 0) with zero velocity and no shot in progress, holed or not. The ball's flight flag is not reset. |
| Game.InitialValid | Game.cs:130-149 | The starting state satisfies the game invariant. |
| Game.ChargeValid | Game.cs:191-202 | Starting and accumulating a charge keep the invariant. |
| Game.ReleaseValid | Game.cs:205-216 | Releasing a shot keeps the invariant. |
| Game.PhysicsValid | Game.cs:218-221 | The physics step keeps the invariant. |
| Game.ResolveValid | Game.cs:223-248 | Ending a shot keeps the invariant, including the new hole being on the course. |
| Game.FrameValid | Game.cs:190-248 | Every frame keeps the invariant. The invariant is: never charging during a shot, charge in [0, 2], the ball never flagged as rolling, and the hole on the course. |
| Game.Run | Game.cs:190-248 | Over n frames the score never drops and rises by at most n. |
| Game.RunValid | Game.cs:190-248 | Any run of well-formed frames from a valid state ends in a valid state. |

## Left out

- Rendering, shaders, meshes and GPU buffers are not modelled. This covers the `Shader` class, window setup and teardown, `Draw`, `Dispose`, and mesh generation. It is all foreign graphics calls with no game logic.
- The ground and the camera (Ground.cs and Camera.cs) are not part of this model. The camera's facing enters a frame as the input `aim`.
- Several parts of the frame handler are not modelled: the Escape key, mouse look, the message text and its timer, and console output (Game.cs:174-188, 230-231 and 236-242). Mouse look only turns the camera. Its effect reaches a shot through the input `aim`, the camera's facing at release. The other parts affect neither the ball, the hole, the score nor the shot state.
- Random draws are not modelled as a generator. The random generator is replaced by the two inputs `randX` and `randZ`. The invariant assumes each lies in [0, 1), the range the generator promises.
- Float behaviour is not modelled. The model is over the reals: no single-precision rounding, overflow, NaN or infinity.
- Game.Frame: the score is a 32-bit `int` in the source (Game.cs:130, 229) but a `nat` here, so the model has no wrap-around. "The score never drops" holds in the source only below 2^31 - 1 captures.
- Game.Run: the same unbounded score. The bound "never drops, rises by at most n" assumes fewer than 2^31 - 1 captures.
- GolfBall.Hit: requires a non-zero direction, and for a rolling shot a direction with a horizontal part. On those inputs the source normalizes a zero vector and produces NaN velocities.
- Game.Release: requires a usable aim, one with a horizontal part, when a shot is released. The camera's pitch is clamped to ±89°, so its facing always has one. A vertical aim would make the rolling-shot direction NaN.
- Game.Frame: takes the same usable-aim requirement through `FrameDefined`. The invariant lemmas also assume a non-negative frame time.
- Game.ShotPower: `MathHelper.Lerp` is modelled as `a + (b - a)·t` without any clamping of `t`. The charge is proved to stay in [0, 2], so `t` is in [0, 1], where clamping changes nothing.
- Several constants take no part in the modelled logic, so the model omits them: `GroundFriction` 0.98, `MinVelocity` 0.05 and `RollingThreshold` 0.3 (GolfBall.cs:27-30) are declared but never used, and the hole's `Depth` 0.4 (Hole.cs:11) is used only to build the hole's mesh (Hole.cs:51, 71), which is not modelled.
- The hole's height test (Hole.cs:129) is commented out in the source, so the model has none. `GolfHole.HeightIgnored` states the consequence.

=== FILE: game.dfy ===
/** The per-frame game logic: charging a shot while the space bar is held,
    firing it on release, stepping the ball and the hole's pull, and, once
    the ball has come to rest, scoring, moving the hole and resetting the ball.
    Keyboard state, the frame time, the camera's aim and the two random draws
    that place a new hole are inputs of a frame. */
module Game {
  import opened Vectors
  import opened GolfBall
  import opened GolfHole

  /** Holding the space bar longer than this does not add power. */
  const MaxChargeTime: real := 2.0
  /** Power of a shot released at once, and of a fully charged one. */
  const MinPower: real := 2.0
  const MaxPower: real := 30.0
  /** Upward component added to the camera's aim before a shot. */
  const AimLift: real := 0.2
  /** A shot in progress whose ball is slower than this is over. */
  const RestSpeed: real := 0.01
  /** A new hole is placed at x in [-HoleSpread/2, HoleSpread/2) and z in (-HoleSpread, 0]. */
  const HoleSpread: real := 8.0

  datatype State = State(
    ball: Ball,
    hole: Hole,
    score: nat,
    shotInProgress: bool,
    chargePower: real,
    chargingShot: bool)

  /** What one frame sees of the outside world: the space bar now and in the
      previous frame, the frame time, the camera's facing, and two draws of the
      random generator. */
  datatype Input = Input(
    spaceDown: bool,
    spaceWasDown: bool,
    dt: real,
    aim: Vec3,
    randX: real,
    randZ: real)

  const Initial: State := State(InitialBall, Hole(Vec3(2.0, 0.0, 0.0)), 0, false, 0.0, false)

  /** The space bar went up since the previous frame. */
  predicate SpaceReleased(i: Input) {
    i.spaceWasDown && !i.spaceDown
  }

  /** A well-formed frame input: time runs forward and the random draws are
      in [0, 1). */
  predicate WellFormed(i: Input) {
    0.0 <= i.dt && 0.0 <= i.randX < 1.0 && 0.0 <= i.randZ < 1.0
  }

  /** The camera's facing can be used as an aim when it has a horizontal part,
      which a pitch clamped short of straight up or down guarantees. */
  predicate AimUsable(aim: Vec3) {
    Horizontal(aim) != Zero
  }

  /** A frame fires a shot only when the space bar is released during a
      charge, and only then does it need a usable aim. */
  predicate FrameDefined(s: State, i: Input) {
    SpaceReleased(i) && s.chargingShot ==> AimUsable(i.aim)
  }

  predicate InCourse(h: Hole) {
    && h.position.y == 0.0
    && -HoleSpread / 2.0 <= h.position.x < HoleSpread / 2.0
    && -HoleSpread < h.position.z <= 0.0
  }

  /** The invariant of the game: never charging during a shot, the charge
      within its bounds, the ball never flagged as rolling, the hole on the course. */
  predicate Valid(s: State) {
    && !(s.chargingShot && s.shotInProgress)
    && 0.0 <= s.chargePower <= MaxChargeTime
    && !s.ball.isRolling
    && InCourse(s.hole)
  }

  /** Pressing the space bar while idle starts a charge from zero. */
  function StartCharge(s: State, i: Input): (r: State)
    ensures r.chargingShot <==> s.chargingShot || (i.spaceDown && !s.shotInProgress)
    ensures r.chargingShot && !s.chargingShot ==> r.chargePower == 0.0
    ensures !r.chargingShot || s.chargingShot ==> r.chargePower == s.chargePower
    ensures r.(chargingShot := s.chargingShot, chargePower := s.chargePower) == s
  {
    if i.spaceDown && !s.shotInProgress && !s.chargingShot then
      s.(chargingShot := true, chargePower := 0.0)
    else
      s
  }

  /** While charging, the charge grows with the frame time up to the cap. */
  function ChargeUp(s: State, dt: real): (r: State)
    ensures r.(chargePower := s.chargePower) == s
    ensures !s.chargingShot ==> r == s
    ensures s.chargingShot ==> r.chargePower <= MaxChargeTime
    ensures s.chargingShot ==> r.chargePower <= s.chargePower + dt
    ensures s.chargingShot ==> r.chargePower == MaxChargeTime || r.chargePower == s.chargePower + dt
  {
    if s.chargingShot then
      var c := s.chargePower + dt;
      s.(chargePower := if c > MaxChargeTime then MaxChargeTime else c)
    else
      s
  }

  /** Linear interpolation from `a` to `b` by `t`. */
  function Lerp(a: real, b: real, t: real): real {
    a + (b - a) * t
  }

  /** The power of a shot released after charging for `charge` seconds. */
  function ShotPower(charge: real): (p: real)
    ensures 0.0 <= charge <= MaxChargeTime ==> MinPower <= p <= MaxPower
  {
    Lerp(MinPower, MaxPower, charge / MaxChargeTime)
  }

  /** Power grows strictly with the charge, from the minimum at no charge to
      the maximum at the cap. */
  lemma ShotPowerMonotone(c1: real, c2: real)
    requires 0.0 <= c1 < c2 <= MaxChargeTime
    ensures ShotPower(c1) < ShotPower(c2)
    ensures ShotPower(0.0) == MinPower && ShotPower(MaxChargeTime) == MaxPower
  {
  }

  /** A shot flies exactly when the charge exceeds 3/7 of a second. */
  lemma FlyingCharge(charge: real)
    ensures ShotPower(charge) > MinFlightForce <==> charge > 3.0 / 7.0
  {
  }

  /** The camera's aim tilted up and normalized: a unit vector along the tilted
      aim that keeps a horizontal part. */
  function AimDirection(aim: Vec3, sqrt: real -> real): (d: Vec3)
    requires IsSqrt(sqrt)
    requires AimUsable(aim)
    ensures LengthSq(d) == 1.0 && Horizontal(d) != Zero
    ensures SameDirection(d, aim.(y := aim.y + AimLift))
  {
    var tilted := aim.(y := aim.y + AimLift);
    NormalizeSigns(tilted, sqrt);
    Normalize(tilted, sqrt)
  }

  /** Releasing the space bar during a charge strikes the ball with the
      charged power along the tilted aim and starts a shot. */
  function Release(s: State, i: Input, sqrt: real -> real): (r: State)
    requires IsSqrt(sqrt)
    requires FrameDefined(s, i)
    ensures !(SpaceReleased(i) && s.chargingShot) ==> r == s
    ensures SpaceReleased(i) && s.chargingShot ==>
      && r.shotInProgress && !r.chargingShot
      && (r.ball.inFlight <==> ShotPower(s.chargePower) > MinFlightForce)
      && r.hole == s.hole && r.score == s.score && r.chargePower == s.chargePower
      && r.ball.isRolling == s.ball.isRolling
    ensures SpaceReleased(i) && s.chargingShot && r.ball.inFlight ==>
      && r.ball.position == s.ball.position
      && LengthSq(r.ball.velocity) == Sq(ShotPower(s.chargePower))
    ensures SpaceReleased(i) && s.chargingShot && !r.ball.inFlight ==>
      && r.ball.position == s.ball.position.(y := GroundHeight)
      && r.ball.velocity.y == 0.0
      && LengthSq(r.ball.velocity) == Sq(ShotPower(s.chargePower) * RollingShotFactor)
    ensures SpaceReleased(i) && s.chargingShot && r.ball.inFlight ==>
      var d := AimDirection(i.aim, sqrt); SameDirection(r.ball.velocity, d.(y := d.y + FlightLift))
    ensures SpaceReleased(i) && s.chargingShot && !r.ball.inFlight && 0.0 <= s.chargePower ==>
      SameDirection(r.ball.velocity, Horizontal(i.aim))
  {
    if SpaceReleased(i) && s.chargingShot then
      var dir := AimDirection(i.aim, sqrt);
      ShotAlongAim(s.ball, i.aim, ShotPower(s.chargePower), sqrt);
      s.(ball := Hit(s.ball, dir, ShotPower(s.chargePower), sqrt), shotInProgress := true, chargingShot := false)
    else
      s
  }

  /** A shot struck along the tilted aim flies along the aim direction raised
      once more by the flight lift, or rolls along the aim's horizontal part. */
  lemma ShotAlongAim(b: Ball, aim: Vec3, power: real, sqrt: real -> real)
    requires IsSqrt(sqrt)
    requires AimUsable(aim)
    ensures var d := AimDirection(aim, sqrt); var r := Hit(b, d, power, sqrt);
      && (power > MinFlightForce ==> SameDirection(r.velocity, d.(y := d.y + FlightLift)))
      && (0.0 < power <= MinFlightForce ==> SameDirection(r.velocity, Horizontal(aim)))
  {
    var d := AimDirection(aim, sqrt);
    NormalizeUnit(d, sqrt);
    if power > MinFlightForce {
      FlightShotDirection(b, d, power, sqrt);
    } else if 0.0 < power {
      RollingShotDirection(b, d, power, sqrt);
      var tilted := aim.(y := aim.y + AimLift);
      NormalizeScales(tilted, sqrt);
      var k := 1.0 / Length(tilted, sqrt);
      assert Horizontal(d) == Scale(Horizontal(aim), k);
      SameDirectionUnscale(Hit(b, d, power, sqrt).velocity, Horizontal(aim), k);
    }
  }

  /** One frame of ball physics followed by the hole's pull. */
  function Physics(s: State, dt: real, sqrt: real -> real): (r: State)
    requires IsSqrt(sqrt)
    ensures r.(ball := s.ball) == s
    ensures r.ball.isRolling == s.ball.isRolling
    ensures !s.ball.inFlight ==> !r.ball.inFlight && r.ball.velocity.y == 0.0
    ensures r.ball.inFlight == Update(s.ball, dt).inFlight
    ensures r.ball.position == Update(s.ball, dt).position
    ensures var u := Update(s.ball, dt); r.ball.velocity.y == u.velocity.y
    ensures var u := Update(s.ball, dt); !InPullZone(s.hole, u.position) ==> r.ball == u
    ensures var u := Update(s.ball, dt);
      InPullZone(s.hole, u.position) ==> Dot(Sub(r.ball.velocity, u.velocity), Sub(s.hole.position, u.position)) > 0.0
  {
    s.(ball := ApplyAttraction(s.hole, Update(s.ball, dt), sqrt))
  }

  /** The shot in progress is over: its ball is slower than the rest speed. */
  predicate ShotOver(s: State) {
    s.shotInProgress && LengthSq(s.ball.velocity) < Sq(RestSpeed)
  }

  /** The new hole drawn from two random numbers. */
  function RelocatedHole(randX: real, randZ: real): (h: Hole)
    ensures 0.0 <= randX < 1.0 && 0.0 <= randZ < 1.0 ==> InCourse(h)
  {
    Hole(Vec3(randX * HoleSpread - HoleSpread / 2.0, 0.0, randZ * -HoleSpread))
  }

  /** Ending a finished shot: a holed ball scores a point and moves the hole;
      either way the ball goes back to the tee at rest. */
  function Resolve(s: State, i: Input): (r: State)
    ensures !ShotOver(s) ==> r == s
    ensures ShotOver(s) ==>
      && !r.shotInProgress
      && r.ball == s.ball.(position := StartPosition, velocity := Zero)
      && r.chargingShot == s.chargingShot && r.chargePower == s.chargePower
    ensures r.score == s.score + 1 <==> ShotOver(s) && CheckBallInHole(s.hole, s.ball.position, s.ball.velocity)
    ensures r.score == s.score || r.score == s.score + 1
    ensures r.hole != s.hole ==> r.score == s.score + 1 && r.hole == RelocatedHole(i.randX, i.randZ)
    ensures ShotOver(s) && CheckBallInHole(s.hole, s.ball.position, s.ball.velocity) ==>
      r.hole == RelocatedHole(i.randX, i.randZ)
  {
    if ShotOver(s) then
      var captured := CheckBallInHole(s.hole, s.ball.position, s.ball.velocity);
      s.(score := if captured then s.score + 1 else s.score,
         hole := if captured then RelocatedHole(i.randX, i.randZ) else s.hole,
         ball := s.ball.(position := StartPosition, velocity := Zero),
         shotInProgress := false)
    else
      s
  }

  /** The state after everything in a frame that comes before the end-of-shot check. */
  function BeforeResolve(s: State, i: Input, sqrt: real -> real): State
    requires IsSqrt(sqrt)
    requires FrameDefined(s, i)
  {
    var charged := ChargeUp(StartCharge(s, i), i.dt);
    Physics(Release(charged, i, sqrt), i.dt, sqrt)
  }

  /** One frame of the game. The score never drops, and it rises by one
      exactly when the frame ends a shot whose ball is in the hole. */
  function Frame(s: State, i: Input, sqrt: real -> real): (r: State)
    requires IsSqrt(sqrt)
    requires FrameDefined(s, i)
    ensures s.score <= r.score <= s.score + 1
    ensures var m := BeforeResolve(s, i, sqrt);
      r.score == s.score + 1 <==> ShotOver(m) && CheckBallInHole(m.hole, m.ball.position, m.ball.velocity)
    ensures r.hole != s.hole ==> r.score == s.score + 1 && r.hole == RelocatedHole(i.randX, i.randZ)
    ensures r.score == s.score + 1 ==> r.hole == RelocatedHole(i.randX, i.randZ)
  {
    Resolve(BeforeResolve(s, i, sqrt), i)
  }

  /** The end-of-shot test on squared speed is the source's test on speed. */
  lemma ShotOverBySpeed(s: State, sqrt: real -> real)
    requires IsSqrt(sqrt)
    ensures ShotOver(s) <==> s.shotInProgress && Length(s.ball.velocity, sqrt) < RestSpeed
  {
    LengthSqZero(s.ball.velocity);
    SqrtBelow(sqrt, LengthSq(s.ball.velocity), RestSpeed);
  }

  /** The capture test at the end of a shot: the ball is slow by then, so the
      near-miss rule always applies and the ball is in exactly when it is
      within 1.2 hole radii on the ground. */
  lemma CaptureAtRest(s: State)
    requires ShotOver(s)
    ensures CheckBallInHole(s.hole, s.ball.position, s.ball.velocity)
      <==> HorizontalDistSq(s.hole.position, s.ball.position) <= Sq(Radius * NearMissFactor)
  {
    SqLess(RestSpeed, NearMissSpeed);
  }

  /** A frame that ends a shot puts the ball back on the tee at rest, keeps
      its flight flag as it was, and leaves no shot in progress. */
  lemma FrameResets(s: State, i: Input, sqrt: real -> real)
    requires IsSqrt(sqrt)
    requires FrameDefined(s, i)
    ensures var m := BeforeResolve(s, i, sqrt); var r := Frame(s, i, sqrt);
      ShotOver(m) ==>
        && r.ball.position == StartPosition && r.ball.velocity == Zero
        && r.ball.inFlight == m.ball.inFlight
        && !r.shotInProgress
  {
  }

  /** Every frame keeps the game invariant. */
  lemma {:induction false} FrameValid(s: State, i: Input, sqrt: real -> real)
    requires IsSqrt(sqrt)
    requires FrameDefined(s, i) && WellFormed(i)
    requires Valid(s)
    ensures Valid(Frame(s, i, sqrt))
  {
    var s1 := StartCharge(s, i);
    ChargeValid(s, i);
    var s2 := ChargeUp(s1, i.dt);
    ReleaseValid(s2, i, sqrt);
    var s3 := Release(s2, i, sqrt);
    PhysicsValid(s3, i.dt, sqrt);
    ResolveValid(Physics(s3, i.dt, sqrt), i);
  }

  lemma ChargeValid(s: State, i: Input)
    requires Valid(s) && WellFormed(i)
    ensures Valid(ChargeUp(StartCharge(s, i), i.dt))
    ensures FrameDefined(s, i) ==> FrameDefined(ChargeUp(StartCharge(s, i), i.dt), i)
  {
  }

  lemma ReleaseValid(s: State, i: Input, sqrt: real -> real)
    requires IsSqrt(sqrt)
    requires FrameDefined(s, i)
    requires Valid(s)
    ensures Valid(Release(s, i, sqrt))
  {
  }

  lemma PhysicsValid(s: State, dt: real, sqrt: real -> real)
    requires IsSqrt(sqrt)
    requires Valid(s)
    ensures Valid(Physics(s, dt, sqrt))
  {
  }

  lemma ResolveValid(s: State, i: Input)
    requires Valid(s) && WellFormed(i)
    ensures Valid(Resolve(s, i))
  {
  }

  /** A run of frames over a sequence of inputs. */
  function Run(s: State, inputs: seq<Input>, sqrt: real -> real): (r: State)
    requires IsSqrt(sqrt)
    requires forall inp <- inputs :: AimUsable(inp.aim)
    ensures s.score <= r.score <= s.score + |inputs|
    decreases |inputs|
  {
    if |inputs| == 0 then
      s
    else
      var next := Frame(s, inputs[0], sqrt);
      assert forall inp <- inputs[1..] :: inp in inputs;
      Run(next, inputs[1..], sqrt)
  }

  /** A run of well-formed frames from a valid state stays valid. */
  lemma {:induction false} RunValid(s: State, inputs: seq<Input>, sqrt: real -> real)
    requires IsSqrt(sqrt)
    requires forall inp <- inputs :: AimUsable(inp.aim) && WellFormed(inp)
    requires Valid(s)
    ensures Valid(Run(s, inputs, sqrt))
    decreases |inputs|
  {
    if |inputs| > 0 {
      var next := Frame(s, inputs[0], sqrt);
      assert Valid(next) by {
        FrameValid(s, inputs[0], sqrt);
      }
      var rest := inputs[1..];
      assert forall inp <- rest :: inp in inputs;
      RunValid(next, rest, sqrt);
      assert Run(s, inputs, sqrt) == Run(next, rest, sqrt);
    }
  }

  /** The game starts in a valid state. */
  lemma InitialValid()
    ensures Valid(Initial)
  {
  }
}

=== FILE: golf_ball.dfy ===
/** The golf ball: its state, the per-frame physics step and the hit that
    starts a shot. The ball is either in flight (gravity, air drag, bounces on
    the ground) or rolling on the ground (friction until it stops). */
module GolfBall {
  import opened Vectors

  /** A hit harder than this launches the ball into the air. */
  const MinFlightForce: real := 8.0
  /** Horizontal speed kept per frame while rolling. */
  const RollingFriction: real := 0.96
  const Gravity: real := -9.8
  /** Fraction of vertical speed returned, reversed, by a bounce. */
  const GroundBounce: real := 0.6
  /** Fraction of the velocity kept per frame while flying. */
  const AirResistance: real := 0.999
  /** Height of the ball's centre when it rests on the ground. */
  const GroundHeight: real := 0.2
  /** A landing with vertical speed at most this ends the flight instead of bouncing. */
  const BounceCutoff: real := 0.1
  /** A rolling ball slower than this is stopped dead. */
  const StopSpeed: real := 0.01
  /** Upward component added to the unit aim of a flying shot. */
  const FlightLift: real := 0.2
  /** Fraction of the power a rolling shot turns into speed. */
  const RollingShotFactor: real := 0.6

  const StartPosition: Vec3 := Vec3(0.0, GroundHeight, 0.0)

  /** `inFlight` is the private flight flag; `isRolling` is the public rolling
      flag, which nothing in the game ever sets. */
  datatype Ball = Ball(position: Vec3, velocity: Vec3, inFlight: bool, isRolling: bool)

  const InitialBall: Ball := Ball(StartPosition, Zero, false, false)

  /** The velocity after one frame of gravity and air drag. */
  function FlightVelocity(v: Vec3, dt: real): Vec3 {
    Scale(Add(v, Vec3(0.0, Gravity * dt, 0.0)), AirResistance)
  }

  /** A flying ball at or below ground height is lifted back onto the ground
      before it moves; every other ball starts its move where it is. */
  function MoveStart(b: Ball): Vec3 {
    if b.inFlight && b.position.y <= GroundHeight then b.position.(y := GroundHeight) else b.position
  }

  /** One frame of ball physics over a step of `dt` seconds. */
  function Update(b: Ball, dt: real): (r: Ball)
    ensures r.isRolling == b.isRolling
    ensures !b.inFlight ==> !r.inFlight
    ensures !b.inFlight ==> r.velocity.y == 0.0
    ensures !b.inFlight ==> LengthSq(r.velocity) <= Prod(Sq(RollingFriction), LengthSq(b.velocity))
    ensures !b.inFlight && r.velocity != Zero ==> Sq(StopSpeed) <= LengthSq(r.velocity)
  {
    if b.inFlight then
      var v := FlightVelocity(b.velocity, dt);
      if b.position.y <= GroundHeight then
        var p := b.position.(y := GroundHeight);
        if Abs(v.y) > BounceCutoff then
          var bounced := v.(y := v.y * -GroundBounce);
          b.(position := Add(p, Scale(bounced, dt)), velocity := bounced)
        else
          b.(position := Add(p, Scale(v, dt)), velocity := v, inFlight := false)
      else
        b.(position := Add(b.position, Scale(v, dt)), velocity := v)
    else
      var v := Roll(b.velocity);
      b.(position := Add(b.position, Scale(v, dt)), velocity := v)
  }

  /** The velocity after one rolling frame: friction on the horizontal part,
      no vertical part, and a dead stop below the stop speed. */
  function Roll(v: Vec3): (w: Vec3)
    ensures w.y == 0.0
    ensures LengthSq(w) <= Prod(Sq(RollingFriction), LengthSq(v))
    ensures w != Zero ==> Sq(StopSpeed) <= LengthSq(w)
  {
    var h := Scale(Horizontal(v), RollingFriction);
    RollingDecay(v);
    LengthSqZero(v);
    SqNonNeg(RollingFriction);
    ProdAtMost(0.0, LengthSq(v), Sq(RollingFriction));
    ProdFacts(0.0, Sq(RollingFriction));
    ProdFacts(LengthSq(v), Sq(RollingFriction));
    if LengthSq(h) < Sq(StopSpeed) then Zero else h
  }

  /** Friction on the horizontal part leaves at most the friction factor
      squared of the squared speed. */
  lemma RollingDecay(v: Vec3)
    ensures LengthSq(Scale(Horizontal(v), RollingFriction)) <= Prod(Sq(RollingFriction), LengthSq(v))
  {
    ScaleLengthSq(Horizontal(v), RollingFriction);
    SqNonNeg(v.y);
    SqNonNeg(RollingFriction);
    assert Sq(0.0) == 0.0;
    ProdAtMost(LengthSq(Horizontal(v)), LengthSq(v), Sq(RollingFriction));
    ProdFacts(Sq(RollingFriction), LengthSq(Horizontal(v)));
    ProdFacts(Sq(RollingFriction), LengthSq(v));
  }

  /** Every frame moves the ball by its new velocity times the step, starting
      from `MoveStart(b)`: the position, lifted to ground height when a flying
      ball is at or below it. */
  lemma UpdateMoves(b: Ball, dt: real)
    ensures Update(b, dt).position == Add(MoveStart(b), Scale(Update(b, dt).velocity, dt))
  {
  }

  /** A flying ball above the ground feels gravity and drag and stays in flight. */
  lemma Airborne(b: Ball, dt: real)
    requires b.inFlight && b.position.y > GroundHeight
    ensures var r := Update(b, dt);
      && r.inFlight
      && r.velocity == Vec3(b.velocity.x * AirResistance,
                            (b.velocity.y + Gravity * dt) * AirResistance,
                            b.velocity.z * AirResistance)
  {
  }

  /** A flying ball at ground height whose vertical speed after gravity and drag
      is above the cutoff bounces: the vertical speed is reversed and scaled by
      the bounce factor, whatever its sign, and the ball stays in flight. */
  lemma Bounce(b: Ball, dt: real)
    requires b.inFlight && b.position.y <= GroundHeight
    requires Abs(FlightVelocity(b.velocity, dt).y) > BounceCutoff
    ensures var r := Update(b, dt); var v := FlightVelocity(b.velocity, dt);
      && r.inFlight
      && r.velocity == Vec3(v.x, -GroundBounce * v.y, v.z)
      && r.position.y == GroundHeight + r.velocity.y * dt
  {
  }

  /** A flying ball at ground height with a small vertical speed stops flying.
      Its vertical speed is kept for this frame, not zeroed. */
  lemma Settle(b: Ball, dt: real)
    requires b.inFlight && b.position.y <= GroundHeight
    requires Abs(FlightVelocity(b.velocity, dt).y) <= BounceCutoff
    ensures var r := Update(b, dt);
      && !r.inFlight
      && r.velocity == FlightVelocity(b.velocity, dt)
      && r.position.y == GroundHeight + r.velocity.y * dt
  {
  }

  /** A rolling ball loses its vertical speed and keeps the friction-scaled
      horizontal speed, unless that is below the stop speed, in which case it
      stops. Both directions of the stop test are stated. */
  lemma Rolling(b: Ball, dt: real)
    requires !b.inFlight
    ensures var r := Update(b, dt); var h := Scale(Horizontal(b.velocity), RollingFriction);
      && (LengthSq(h) < Sq(StopSpeed) ==> r.velocity == Zero && r.position == b.position)
      && (Sq(StopSpeed) <= LengthSq(h) ==> r.velocity == h)
  {
    LengthSqZero(Scale(Horizontal(b.velocity), RollingFriction));
    SqNonNeg(StopSpeed);
  }

  /** The stop test on squared speed is the source's test on speed. */
  lemma StopTest(v: Vec3, sqrt: real -> real)
    requires IsSqrt(sqrt)
    ensures Length(v, sqrt) < StopSpeed <==> LengthSq(v) < Sq(StopSpeed)
  {
    LengthSqZero(v);
    SqrtBelow(sqrt, LengthSq(v), StopSpeed);
  }

  /** The flight branch tests the height before it moves the ball. A ball that
      takes off from the ground climbing faster than the cutoff is therefore
      bounced on its first frame: its vertical speed turns downward, and with a
      positive step it ends the frame below ground height, still in flight. */
  lemma TakeOffBounce(b: Ball, dt: real)
    requires b.inFlight && b.position.y <= GroundHeight
    requires FlightVelocity(b.velocity, dt).y > BounceCutoff
    ensures var r := Update(b, dt);
      && r.inFlight
      && r.velocity.y < 0.0
      && (0.0 < dt ==> r.position.y < GroundHeight)
  {
    var r := Update(b, dt);
    if 0.0 < dt {
      ProdSign(r.velocity.y, dt);
    }
  }

  /** The first frame after a flying shot struck on the ground: when the shot
      still climbs faster than the cutoff after one frame of gravity, that frame
      bounces it, so it ends heading down and, with a positive step, below
      ground height. */
  lemma TeeShotBounces(b: Ball, direction: Vec3, power: real, dt: real, sqrt: real -> real)
    requires IsSqrt(sqrt)
    requires HitDefined(direction, power) && power > MinFlightForce
    requires b.position.y <= GroundHeight
    requires FlightVelocity(Hit(b, direction, power, sqrt).velocity, dt).y > BounceCutoff
    ensures var r := Update(Hit(b, direction, power, sqrt), dt);
      r.inFlight && r.velocity.y < 0.0 && (0.0 < dt ==> r.position.y < GroundHeight)
  {
    TakeOffBounce(Hit(b, direction, power, sqrt), dt);
  }

  /** `n` frames of `dt` seconds each. */
  function Simulate(b: Ball, dt: real, n: nat): (r: Ball)
    ensures r.isRolling == b.isRolling
    ensures !b.inFlight ==> !r.inFlight
    decreases n
  {
    if n == 0 then b else Simulate(Update(b, dt), dt, n - 1)
  }

  function Pow(x: real, n: nat): real {
    if n == 0 then 1.0 else Prod(x, Pow(x, n - 1))
  }

  lemma {:induction false} PowNonNeg(x: real, n: nat)
    requires 0.0 <= x
    ensures 0.0 <= Pow(x, n)
  {
    if n > 0 {
      PowNonNeg(x, n - 1);
      ProdAtMost(0.0, x, Pow(x, n - 1));
      ProdFacts(0.0, Pow(x, n - 1));
    }
  }

  /** Once rolling, a ball never takes off again: only a hit starts a flight. */
  lemma {:induction false} RollingStaysGrounded(b: Ball, dt: real, n: nat)
    requires !b.inFlight
    ensures !Simulate(b, dt, n).inFlight
    ensures n > 0 ==> Simulate(b, dt, n).velocity.y == 0.0
    decreases n
  {
    if n > 0 {
      RollingStaysGrounded(Update(b, dt), dt, n - 1);
    }
  }

  /** Each rolling frame multiplies the squared speed by at most the friction
      factor squared, so after `n` frames it is at most that factor to the `n`. */
  lemma {:induction false} RollingSlowsDown(b: Ball, dt: real, n: nat)
    requires !b.inFlight
    ensures LengthSq(Simulate(b, dt, n).velocity) <= Prod(Pow(Sq(RollingFriction), n), LengthSq(b.velocity))
    decreases n
  {
    if n == 0 {
      assert Prod(Pow(Sq(RollingFriction), 0), LengthSq(b.velocity)) == LengthSq(b.velocity);
    } else {
      RollingSlowsDown(Update(b, dt), dt, n - 1);
      RollingFrameBound(b, dt, n);
    }
  }

  /** The inductive step of `RollingSlowsDown`: one more frame in front of a
      bounded run keeps it bounded, with one more factor. */
  lemma RollingFrameBound(b: Ball, dt: real, n: nat)
    requires !b.inFlight && 0 < n
    ensures LengthSq(Simulate(Update(b, dt), dt, n - 1).velocity)
        <= Prod(Pow(Sq(RollingFriction), n - 1), LengthSq(Update(b, dt).velocity))
      ==> LengthSq(Simulate(b, dt, n).velocity) <= Prod(Pow(Sq(RollingFriction), n), LengthSq(b.velocity))
  {
    var u := Update(b, dt);
    assert Simulate(b, dt, n) == Simulate(u, dt, n - 1);
    SqNonNeg(RollingFriction);
    if LengthSq(Simulate(u, dt, n - 1).velocity) <= Prod(Pow(Sq(RollingFriction), n - 1), LengthSq(u.velocity)) {
      PowStep(LengthSq(Simulate(u, dt, n - 1).velocity), LengthSq(u.velocity), LengthSq(b.velocity),
              Sq(RollingFriction), n);
    }
  }

  /** One more factor of a power: if x <= q^(n-1) * y and y <= q * z, then x <= q^n * z. */
  lemma PowStep(x: real, y: real, z: real, q: real, n: nat)
    requires 0.0 <= q && 0 < n
    requires x <= Prod(Pow(q, n - 1), y) && y <= Prod(q, z)
    ensures x <= Prod(Pow(q, n), z)
  {
    PowNonNeg(q, n - 1);
    BoundChain(x, y, z, Pow(q, n - 1), q);
  }

  /** Chaining two multiplicative bounds: if x <= p*y and y <= q*z with p >= 0,
      then x <= (q*p)*z. */
  lemma BoundChain(x: real, y: real, z: real, p: real, q: real)
    requires 0.0 <= p
    requires x <= Prod(p, y) && y <= Prod(q, z)
    ensures x <= Prod(Prod(q, p), z)
  {
    ProdAtMost(y, Prod(q, z), p);
    ProdFacts(p, y);
    ProdRotate(q, z, p);
    ProdFacts(Prod(q, p), z);
  }

  /** The hits the model covers: a zero aim has no direction, and a rolling
      shot aimed straight up or down has no horizontal direction. */
  predicate HitDefined(direction: Vec3, power: real) {
    direction != Zero && (power > MinFlightForce || Horizontal(direction) != Zero)
  }

  /** The unit aim of a flying shot: the unit direction lifted by `FlightLift`. */
  function Lifted(direction: Vec3, sqrt: real -> real): (u: Vec3)
    requires IsSqrt(sqrt)
    requires direction != Zero
    ensures LengthSq(u) == 1.0
  {
    var d := Normalize(direction, sqrt);
    LiftNonZero(d);
    Normalize(d.(y := d.y + FlightLift), sqrt)
  }

  /** The unit aim of a rolling shot: the unit direction flattened onto the ground. */
  function Flattened(direction: Vec3, sqrt: real -> real): (u: Vec3)
    requires IsSqrt(sqrt)
    requires direction != Zero && Horizontal(direction) != Zero
    ensures LengthSq(u) == 1.0 && u.y == 0.0
  {
    var d := Normalize(direction, sqrt);
    NormalizeSigns(direction, sqrt);
    Normalize(d.(y := 0.0), sqrt)
  }

  /** Lifting a unit vector cannot cancel it: only (0, -0.2, 0) would lift to zero. */
  lemma LiftNonZero(d: Vec3)
    requires LengthSq(d) == 1.0
    ensures d.(y := d.y + FlightLift) != Zero
  {
  }

  /** Striking the ball along `direction` with `power`. */
  function Hit(b: Ball, direction: Vec3, power: real, sqrt: real -> real): (r: Ball)
    requires IsSqrt(sqrt)
    requires HitDefined(direction, power)
    ensures r.inFlight <==> power > MinFlightForce
    ensures r.isRolling == b.isRolling
    ensures r.inFlight ==> r.position == b.position && LengthSq(r.velocity) == Sq(power)
    ensures !r.inFlight ==> r.position == b.position.(y := GroundHeight) && r.velocity.y == 0.0
    ensures !r.inFlight ==> LengthSq(r.velocity) == Sq(power * RollingShotFactor)
  {
    if power > MinFlightForce then
      var u := Lifted(direction, sqrt);
      ScaleLengthSq(u, power);
      b.(velocity := Scale(u, power), inFlight := true)
    else
      var u := Flattened(direction, sqrt);
      ScaleLengthSq(u, power);
      ScaleLengthSq(Scale(u, power), RollingShotFactor);
      SqMul(power, RollingShotFactor);
      b.(velocity := Scale(Scale(u, power), RollingShotFactor), inFlight := false,
         position := b.position.(y := GroundHeight))
  }

  /** A flying shot with positive power points along the lifted aim, and it
      climbs whenever the aim does not point downward. */
  lemma {:induction false} FlightShotDirection(b: Ball, direction: Vec3, power: real, sqrt: real -> real)
    requires IsSqrt(sqrt)
    requires direction != Zero && power > MinFlightForce
    ensures var r := Hit(b, direction, power, sqrt); var d := Normalize(direction, sqrt);
      && SameDirection(r.velocity, d.(y := d.y + FlightLift))
      && (0.0 <= direction.y ==> 0.0 < r.velocity.y)
  {
    var d := Normalize(direction, sqrt);
    LiftNonZero(d);
    var lifted := d.(y := d.y + FlightLift);
    NormalizeScales(lifted, sqrt);
    var k := 1.0 / Length(lifted, sqrt);
    ProdPos(k, power);
    assert Hit(b, direction, power, sqrt).velocity == Scale(lifted, k * power);
    ScaleSameDirection(lifted, k * power);
    if 0.0 <= direction.y {
      NormalizeSigns(direction, sqrt);
      ProdSign(lifted.y, k * power);
    }
  }

  /** A rolling shot with positive power points along the aim's horizontal part. */
  lemma {:induction false} RollingShotDirection(b: Ball, direction: Vec3, power: real, sqrt: real -> real)
    requires IsSqrt(sqrt)
    requires HitDefined(direction, power) && 0.0 < power <= MinFlightForce
    ensures SameDirection(Hit(b, direction, power, sqrt).velocity, Horizontal(direction))
  {
    var h := Horizontal(direction);
    NormalizeScales(direction, sqrt);
    var k1 := 1.0 / Length(direction, sqrt);
    var flat := Normalize(direction, sqrt).(y := 0.0);
    assert flat == Scale(h, k1);
    NormalizeSigns(direction, sqrt);
    NormalizeScales(flat, sqrt);
    var k2 := 1.0 / Length(flat, sqrt);
    ProdPos(k1, k2);
    ProdPos(k1 * k2, power);
    ProdPos(k1 * k2 * power, RollingShotFactor);
    assert Hit(b, direction, power, sqrt).velocity == Scale(h, k1 * k2 * power * RollingShotFactor);
    ScaleSameDirection(h, k1 * k2 * power * RollingShotFactor);
  }
}

=== FILE: hole.dfy ===
/** The hole: a point on the ground that pulls a nearby ball towards itself and
    decides whether the ball has dropped in. Both work in the ground plane:
    heights are ignored. */
module GolfHole {
  import opened Vectors
  import opened GolfBall

  /** Capture radius of the hole. */
  const Radius: real := 0.35
  /** Outer edge of the zone in which the hole pulls the ball. */
  const AttractionRadius: real := 0.5
  /** Inner edge of that zone: closer than this there is no pull. */
  const DeadZone: real := 0.1
  /** Pull coefficient for a ball that is not flagged as rolling. */
  const AttractionForce: real := 0.3
  /** Pull coefficient for a ball flagged as rolling. */
  const RollingAttractionForce: real := 0.5
  /** Fixed factors applied to the pull after the distance falloff. */
  const Falloff: real := 0.2
  const PullScale: real := 0.1
  /** A slow ball within this multiple of the radius also counts as holed. */
  const NearMissFactor: real := 1.2
  /** "Slow" for the near-miss rule. */
  const NearMissSpeed: real := 0.5

  /** The supremum of the pull on a ball that is not flagged as rolling,
      approached at the inner edge of the zone:
      AttractionForce * (1 - DeadZone / AttractionRadius) * Falloff * PullScale. */
  const MaxPull: real := 0.0048

  datatype Hole = Hole(position: Vec3)

  /** The vector from `p` to the hole, flattened onto the ground. */
  function Offset(hole: Hole, p: Vec3): Vec3 {
    Horizontal(Sub(hole.position, p))
  }

  /** The ball at `p` is strictly between the dead zone and the edge of the
      pull zone, measured in the ground plane. */
  predicate InPullZone(hole: Hole, p: Vec3) {
    Sq(DeadZone) < HorizontalDistSq(hole.position, p) < Sq(AttractionRadius)
  }

  /** The pull coefficient for the ball's rolling flag. */
  function Coefficient(isRolling: bool): real {
    if isRolling then RollingAttractionForce else AttractionForce
  }

  /** The coefficient scaled down linearly with the ground distance `d`. */
  function PullForce(isRolling: bool, d: real): (f: real)
    requires DeadZone < d < AttractionRadius
    ensures 0.0 < f
  {
    Coefficient(isRolling) * ((1.0 - d / AttractionRadius) * Falloff)
  }

  /** The size of the pull at ground distance `d` from the hole. */
  function PullStrength(isRolling: bool, d: real): (k: real)
    requires DeadZone < d < AttractionRadius
    ensures 0.0 < k
    ensures !isRolling ==> k < MaxPull
    ensures isRolling ==> k < RollingAttractionForce * (1.0 - DeadZone / AttractionRadius) * Falloff * PullScale
  {
    PullForce(isRolling, d) * PullScale
  }

  /** The pull weakens linearly towards the edge of the zone. */
  lemma PullFades(isRolling: bool, d1: real, d2: real)
    requires DeadZone < d1 < d2 < AttractionRadius
    ensures PullStrength(isRolling, d2) < PullStrength(isRolling, d1)
  {
  }

  /** The velocity change the hole gives the ball in one frame. */
  function Pull(hole: Hole, b: Ball, sqrt: real -> real): (j: Vec3)
    requires IsSqrt(sqrt)
    ensures j.y == 0.0
    ensures j != Zero <==> InPullZone(hole, b.position)
    ensures InPullZone(hole, b.position) ==> Dot(j, Sub(hole.position, b.position)) > 0.0
  {
    var offset := Offset(hole, b.position);
    var d := Length(offset, sqrt);
    PullZoneTest(hole, b.position, sqrt);
    if d < AttractionRadius && d > DeadZone then
      var dir := Normalize(offset, sqrt);
      var force := PullForce(b.isRolling, d);
      PullTowardsHole(hole, b.position, force, sqrt);
      Scale(Scale(dir, force), PullScale)
    else
      Zero
  }

  /** The zone test on the ground distance is the zone test on its square. */
  lemma PullZoneTest(hole: Hole, p: Vec3, sqrt: real -> real)
    requires IsSqrt(sqrt)
    ensures var d := Length(Offset(hole, p), sqrt);
      (d < AttractionRadius && d > DeadZone) <==> InPullZone(hole, p)
  {
    var s := LengthSq(Offset(hole, p));
    LengthSqZero(Offset(hole, p));
    SqrtBelow(sqrt, s, AttractionRadius);
    SqrtBelow(sqrt, s, DeadZone);
  }

  /** A positive multiple of the unit offset points at the hole. */
  lemma PullTowardsHole(hole: Hole, p: Vec3, force: real, sqrt: real -> real)
    requires IsSqrt(sqrt)
    requires Offset(hole, p) != Zero
    requires 0.0 < force
    ensures var j := Scale(Scale(Normalize(Offset(hole, p), sqrt), force), PullScale);
      j.y == 0.0 && j != Zero && Dot(j, Sub(hole.position, p)) > 0.0
  {
    var offset := Offset(hole, p);
    NormalizeScales(offset, sqrt);
    var k := 1.0 / Length(offset, sqrt);
    ProdPos(k, force);
    ProdPos(k * force, PullScale);
    var c := k * force * PullScale;
    var j := Scale(offset, c);
    assert Scale(Scale(Normalize(offset, sqrt), force), PullScale) == j by {
      ScaleScale(offset, k, force);
      ScaleScale(offset, k * force, PullScale);
    }
    assert Dot(j, offset) > 0.0 by {
      ScaleSameDirection(offset, c);
    }
    assert j.y == 0.0;
    assert Dot(j, Sub(hole.position, p)) == Dot(j, offset) by {
      DotFlat(j, Sub(hole.position, p));
    }
    assert j != Zero by {
      assert Dot(Zero, offset) == 0.0;
    }
  }

  /** Inside the zone the pull has exactly the strength `PullStrength` gives
      for the ball's ground distance. */
  lemma {:induction false} PullSize(hole: Hole, b: Ball, sqrt: real -> real)
    requires IsSqrt(sqrt)
    requires InPullZone(hole, b.position)
    ensures var d := Length(Offset(hole, b.position), sqrt);
      && DeadZone < d < AttractionRadius
      && LengthSq(Pull(hole, b, sqrt)) == Sq(PullStrength(b.isRolling, d))
  {
    var offset := Offset(hole, b.position);
    var d := Length(offset, sqrt);
    PullZoneTest(hole, b.position, sqrt);
    LengthSqZero(offset);
    var dir := Normalize(offset, sqrt);
    var force := PullForce(b.isRolling, d);
    assert Pull(hole, b, sqrt) == Scale(dir, force * PullScale);
    ScaleLengthSq(dir, force * PullScale);
  }

  /** A closer ball is pulled harder than a farther one. */
  lemma PullStrongerNearer(hole: Hole, b1: Ball, b2: Ball, sqrt: real -> real)
    requires IsSqrt(sqrt)
    requires b1.isRolling == b2.isRolling
    requires InPullZone(hole, b1.position) && InPullZone(hole, b2.position)
    requires HorizontalDistSq(hole.position, b1.position) < HorizontalDistSq(hole.position, b2.position)
    ensures LengthSq(Pull(hole, b2, sqrt)) < LengthSq(Pull(hole, b1, sqrt))
  {
    PullSize(hole, b1, sqrt);
    PullSize(hole, b2, sqrt);
    var d1 := Length(Offset(hole, b1.position), sqrt);
    var d2 := Length(Offset(hole, b2.position), sqrt);
    SqOrder(d1, d2);
    PullFades(b1.isRolling, d1, d2);
    SqLess(PullStrength(b1.isRolling, d2), PullStrength(b1.isRolling, d1));
  }

  /** A ball that is not flagged as rolling, the only kind the game produces,
      gets a pull of size below `MaxPull` per frame; `Pull` states that it is
      non-zero exactly inside the pull zone. */
  lemma PullBounded(hole: Hole, b: Ball, sqrt: real -> real)
    requires IsSqrt(sqrt)
    requires !b.isRolling
    ensures LengthSq(Pull(hole, b, sqrt)) < Sq(MaxPull)
  {
    var j := Pull(hole, b, sqrt);
    if InPullZone(hole, b.position) {
      PullBelowMax(hole, b, sqrt);
    } else {
      assert LengthSq(j) < Sq(MaxPull) by {
        LengthSqZero(j);
        assert 0.0 < MaxPull;
        SqNonNeg(MaxPull);
      }
    }
  }

  lemma PullBelowMax(hole: Hole, b: Ball, sqrt: real -> real)
    requires IsSqrt(sqrt)
    requires !b.isRolling && InPullZone(hole, b.position)
    ensures LengthSq(Pull(hole, b, sqrt)) < Sq(MaxPull)
  {
    PullSize(hole, b, sqrt);
    var d := Length(Offset(hole, b.position), sqrt);
    SqLess(PullStrength(b.isRolling, d), MaxPull);
  }

  /** The hole's pull on the ball for one frame: only the velocity changes, by
      a horizontal nudge towards the hole inside the pull zone, and not at all
      outside it. */
  function ApplyAttraction(hole: Hole, b: Ball, sqrt: real -> real): (r: Ball)
    requires IsSqrt(sqrt)
    ensures r.position == b.position && r.inFlight == b.inFlight && r.isRolling == b.isRolling
    ensures r.velocity.y == b.velocity.y
    ensures r == b <==> !InPullZone(hole, b.position)
    ensures InPullZone(hole, b.position) ==> Dot(Sub(r.velocity, b.velocity), Sub(hole.position, b.position)) > 0.0
  {
    var j := Pull(hole, b, sqrt);
    assert Sub(Add(b.velocity, j), b.velocity) == j;
    b.(velocity := Add(b.velocity, j))
  }

  /** The ball at `p` moving with `v` has dropped in: it is within the radius
      in the ground plane, or within the near-miss ring and slow. */
  function CheckBallInHole(hole: Hole, p: Vec3, v: Vec3): (captured: bool)
    ensures HorizontalDistSq(hole.position, p) <= Sq(Radius) ==> captured
    ensures captured ==> HorizontalDistSq(hole.position, p) <= Sq(Radius * NearMissFactor)
  {
    SqLess(Radius, Radius * NearMissFactor);
    var d2 := HorizontalDistSq(hole.position, p);
    d2 <= Sq(Radius) || (d2 <= Sq(Radius * NearMissFactor) && LengthSq(v) < Sq(NearMissSpeed))
  }

  /** The capture test on squares is the test on ground distance and speed. */
  lemma CaptureByDistance(hole: Hole, p: Vec3, v: Vec3, sqrt: real -> real)
    requires IsSqrt(sqrt)
    ensures var d := Length(Offset(hole, p), sqrt);
      CheckBallInHole(hole, p, v) <==>
        d <= Radius || (d <= Radius * NearMissFactor && Length(v, sqrt) < NearMissSpeed)
  {
    LengthSqZero(Offset(hole, p));
    LengthSqZero(v);
    SqrtBelow(sqrt, LengthSq(Offset(hole, p)), Radius);
    SqrtBelow(sqrt, LengthSq(Offset(hole, p)), Radius * NearMissFactor);
    SqrtBelow(sqrt, LengthSq(v), NearMissSpeed);
  }

  /** Only the ground-plane positions matter: the ball's and the hole's heights
      have no say in the pull or the capture. */
  lemma HeightIgnored(hole: Hole, b: Ball, v: Vec3, y: real, hy: real, sqrt: real -> real)
    requires IsSqrt(sqrt)
    ensures var hole' := Hole(hole.position.(y := hy)); var b' := b.(position := b.position.(y := y));
      && (CheckBallInHole(hole', b'.position, v) <==> CheckBallInHole(hole, b.position, v))
      && Pull(hole', b', sqrt) == Pull(hole, b, sqrt)
  {
    var hole' := Hole(hole.position.(y := hy));
    var b' := b.(position := b.position.(y := y));
    assert Offset(hole', b'.position) == Offset(hole, b.position);
  }
}

=== FILE: vectors.dfy ===
/** Three-dimensional vectors over the reals, standing in for the vector
    library the game is built on. Float rounding and NaN are not modelled.

    There is no square root on `real` in Dafny, so every operation that needs
    a length takes the square root as a parameter and requires `IsSqrt` of it,
    which pins it down to the one non-negative square root on the non-negative
    reals. */
module Vectors {

  datatype Vec3 = Vec3(x: real, y: real, z: real)

  const Zero: Vec3 := Vec3(0.0, 0.0, 0.0)

  function Add(a: Vec3, b: Vec3): Vec3 {
    Vec3(a.x + b.x, a.y + b.y, a.z + b.z)
  }

  function Sub(a: Vec3, b: Vec3): Vec3 {
    Vec3(a.x - b.x, a.y - b.y, a.z - b.z)
  }

  function Scale(v: Vec3, k: real): Vec3 {
    Vec3(v.x * k, v.y * k, v.z * k)
  }

  function Dot(a: Vec3, b: Vec3): real {
    a.x * b.x + a.y * b.y + a.z * b.z
  }

  function Cross(a: Vec3, b: Vec3): Vec3 {
    Vec3(a.y * b.z - a.z * b.y, a.z * b.x - a.x * b.z, a.x * b.y - a.y * b.x)
  }

  function Abs(a: real): real {
    if a < 0.0 then -a else a
  }

  /** The product of two reals. Products and squares are kept behind these
      names so that the facts about them are stated once, in the lemmas below. */
  function Prod(a: real, b: real): real {
    a * b
  }

  function Sq(a: real): real {
    Prod(a, a)
  }

  /** Squared Euclidean length. */
  function LengthSq(v: Vec3): real {
    Sq(v.x) + Sq(v.y) + Sq(v.z)
  }

  /** The ground-plane (X, Z) part of a vector, with the vertical part dropped. */
  function Horizontal(v: Vec3): Vec3 {
    Vec3(v.x, 0.0, v.z)
  }

  /** Squared distance between two points measured in the ground plane. */
  function HorizontalDistSq(a: Vec3, b: Vec3): real {
    LengthSq(Horizontal(Sub(a, b)))
  }

  /** `sqrt` is the square root on the non-negative reals. */
  ghost predicate IsSqrt(sqrt: real -> real) {
    forall s: real :: 0.0 <= s ==> 0.0 <= sqrt(s) && Sq(sqrt(s)) == s
  }

  /** `u` points the same way as `v`: parallel and with a positive dot product. */
  predicate SameDirection(u: Vec3, v: Vec3) {
    Cross(u, v) == Zero && Dot(u, v) > 0.0
  }

  /** The length of `v`, taken with the given square root. */
  function Length(v: Vec3, sqrt: real -> real): (l: real)
    requires IsSqrt(sqrt)
    ensures 0.0 <= l && Sq(l) == LengthSq(v)
    ensures l == 0.0 <==> v == Zero
  {
    LengthSqZero(v);
    SqrtFacts(sqrt, LengthSq(v));
    SqNonNeg(sqrt(LengthSq(v)));
    sqrt(LengthSq(v))
  }

  /** The unit vector along a non-zero `v`; the library divides each component
      by the length. A zero vector has no direction, so it is excluded. */
  function Normalize(v: Vec3, sqrt: real -> real): (u: Vec3)
    requires IsSqrt(sqrt)
    requires v != Zero
    ensures LengthSq(u) == 1.0
    ensures SameDirection(u, v)
  {
    var l := Length(v, sqrt);
    ScaleLengthSq(v, 1.0 / l);
    InverseSq(l);
    ScaleDot(v, 1.0 / l);
    LengthSqZero(v);
    ProdPos(1.0 / l, LengthSq(v));
    Scale(v, 1.0 / l)
  }

  lemma ProdPos(a: real, b: real)
    requires 0.0 < a && 0.0 < b
    ensures 0.0 < a * b
  {
  }

  /** Multiplying by a positive factor preserves strict order. */
  lemma ProdLess(a: real, b: real, k: real)
    requires a < b && 0.0 < k
    ensures Prod(a, k) < Prod(b, k)
  {
    assert (b - a) * k > 0.0;
  }

  /** Multiplying by a non-negative factor preserves order. */
  lemma ProdAtMost(a: real, b: real, k: real)
    requires a <= b && 0.0 <= k
    ensures Prod(a, k) <= Prod(b, k)
  {
    assert (b - a) * k >= 0.0;
  }

  lemma ProdFacts(a: real, b: real)
    ensures Prod(a, b) == Prod(b, a)
    ensures Prod(-a, -b) == Prod(a, b)
    ensures Prod(0.0, a) == 0.0
  {
  }

  lemma ProdRotate(a: real, b: real, c: real)
    ensures Prod(Prod(a, b), c) == Prod(Prod(a, c), b)
  {
  }

  /** Squares are non-negative, and positive away from zero. */
  lemma SqNonNeg(a: real)
    ensures 0.0 <= Sq(a)
    ensures a != 0.0 ==> 0.0 < Sq(a)
  {
    ProdFacts(a, a);
    ProdFacts(-a, -a);
    if a > 0.0 {
      ProdLess(0.0, a, a);
    } else if a < 0.0 {
      ProdLess(0.0, -a, -a);
    }
  }

  /** The square of a product is the product of the squares. */
  lemma SqMul(a: real, k: real)
    ensures Sq(a * k) == Sq(a) * Sq(k)
  {
  }

  /** Only the zero vector has zero length; every other length is positive. */
  lemma LengthSqZero(v: Vec3)
    ensures 0.0 <= LengthSq(v)
    ensures LengthSq(v) == 0.0 <==> v == Zero
  {
    SqNonNeg(v.x);
    SqNonNeg(v.y);
    SqNonNeg(v.z);
  }

  lemma ScaleLengthSq(v: Vec3, k: real)
    ensures LengthSq(Scale(v, k)) == Sq(k) * LengthSq(v)
  {
    SqMul(v.x, k);
    SqMul(v.y, k);
    SqMul(v.z, k);
  }

  lemma ScaleDot(v: Vec3, k: real)
    ensures Dot(Scale(v, k), v) == k * LengthSq(v)
    ensures Cross(Scale(v, k), v) == Zero
  {
  }

  lemma ScaleScale(v: Vec3, a: real, b: real)
    ensures Scale(Scale(v, a), b) == Scale(v, a * b)
  {
  }

  /** A vector with no vertical part sees only the horizontal part of another. */
  lemma DotFlat(u: Vec3, v: Vec3)
    requires u.y == 0.0
    ensures Dot(u, v) == Dot(u, Horizontal(v))
  {
  }

  /** A positive real and its inverse: the inverse is positive and the squares multiply to 1. */
  lemma InverseSq(l: real)
    requires 0.0 < l
    ensures 0.0 < 1.0 / l
    ensures Sq(1.0 / l) * Sq(l) == 1.0
  {
    SqMul(1.0 / l, l);
  }

  /** The defining facts of the square root at one point. */
  lemma SqrtFacts(sqrt: real -> real, s: real)
    requires IsSqrt(sqrt)
    requires 0.0 <= s
    ensures 0.0 <= sqrt(s) && Sq(sqrt(s)) == s
    ensures 0.0 < s ==> 0.0 < sqrt(s)
  {
  }

  /** Squaring is strictly monotone on the non-negative reals. */
  lemma SqLess(r: real, c: real)
    requires 0.0 <= r < c
    ensures Sq(r) < Sq(c)
  {
    ProdAtMost(r, c, r);
    ProdLess(r, c, c);
    ProdFacts(c, r);
  }

  /** On the non-negative reals squaring preserves and reflects order. */
  lemma SqOrder(r: real, c: real)
    requires 0.0 <= r && 0.0 <= c
    ensures r < c <==> Sq(r) < Sq(c)
    ensures r <= c <==> Sq(r) <= Sq(c)
  {
    if r < c {
      SqLess(r, c);
    } else if c < r {
      SqLess(c, r);
    }
  }

  /** A length compared against a non-negative bound: the comparison of the
      squares decides it. This is what lets the model compare squared speeds
      and distances where the source compares lengths. */
  lemma SqrtBelow(sqrt: real -> real, s: real, c: real)
    requires IsSqrt(sqrt)
    requires 0.0 <= s && 0.0 <= c
    ensures sqrt(s) < c <==> s < Sq(c)
    ensures sqrt(s) <= c <==> s <= Sq(c)
  {
    SqrtFacts(sqrt, s);
    SqOrder(sqrt(s), c);
  }

  /** The square root of 1 is 1. */
  lemma SqrtOne(sqrt: real -> real)
    requires IsSqrt(sqrt)
    ensures sqrt(1.0) == 1.0
  {
    SqrtFacts(sqrt, 1.0);
    SqOrder(sqrt(1.0), 1.0);
  }

  /** Normalizing a vector that already has unit length leaves it unchanged,
      so normalizing twice is the same as normalizing once. */
  lemma NormalizeUnit(v: Vec3, sqrt: real -> real)
    requires IsSqrt(sqrt)
    requires LengthSq(v) == 1.0
    ensures v != Zero
    ensures Normalize(v, sqrt) == v
  {
    LengthSqZero(v);
    SqrtOne(sqrt);
  }

  /** A positive factor keeps the sign of what it multiplies. */
  lemma ProdSign(a: real, k: real)
    requires 0.0 < k
    ensures Prod(a, k) > 0.0 <==> a > 0.0
    ensures Prod(a, k) < 0.0 <==> a < 0.0
  {
    ProdFacts(k, 0.0);
    if a > 0.0 {
      ProdLess(0.0, a, k);
    } else if a < 0.0 {
      ProdLess(a, 0.0, k);
    }
  }

  /** Normalizing keeps the sign of every component: a zero component stays
      zero and a positive (negative) one stays positive (negative). */
  lemma {:induction false} NormalizeSigns(v: Vec3, sqrt: real -> real)
    requires IsSqrt(sqrt)
    requires v != Zero
    ensures var u := Normalize(v, sqrt);
      && (u.x > 0.0 <==> v.x > 0.0) && (u.x < 0.0 <==> v.x < 0.0)
      && (u.y > 0.0 <==> v.y > 0.0) && (u.y < 0.0 <==> v.y < 0.0)
      && (u.z > 0.0 <==> v.z > 0.0) && (u.z < 0.0 <==> v.z < 0.0)
  {
    var l := Length(v, sqrt);
    InverseSq(l);
    ProdSign(v.x, 1.0 / l);
    ProdSign(v.y, 1.0 / l);
    ProdSign(v.z, 1.0 / l);
  }

  /** Normalizing is scaling by a positive factor, the inverse length. */
  lemma NormalizeScales(v: Vec3, sqrt: real -> real)
    requires IsSqrt(sqrt)
    requires v != Zero
    ensures 0.0 < 1.0 / Length(v, sqrt)
    ensures Normalize(v, sqrt) == Scale(v, 1.0 / Length(v, sqrt))
  {
    InverseSq(Length(v, sqrt));
  }

  /** Pointing the same way as a positive multiple of `h` is pointing the same way as `h`. */
  lemma SameDirectionUnscale(u: Vec3, h: Vec3, k: real)
    requires 0.0 < k
    requires SameDirection(u, Scale(h, k))
    ensures SameDirection(u, h)
  {
  }

  /** A non-zero vector scaled by a positive factor keeps its direction. */
  lemma ScaleSameDirection(v: Vec3, k: real)
    requires v != Zero && 0.0 < k
    ensures SameDirection(Scale(v, k), v)
  {
    ScaleDot(v, k);
    LengthSqZero(v);
    ProdPos(k, LengthSq(v));
  }

  lemma NormalizeIdempotent(v: Vec3, sqrt: real -> real)
    requires IsSqrt(sqrt)
    requires v != Zero
    ensures Normalize(Normalize(v, sqrt), sqrt) == Normalize(v, sqrt)
  {
    NormalizeUnit(Normalize(v, sqrt), sqrt);
  }
}
